=== FILE: README.md ===
# proxy-checker, modelled in Dafny

`proxy_checker.py` reads a list of authenticated HTTP proxies, one
`host:port:username:password` per line, probes each through the network and
sorts it into OK, SLOW (possible censorship), TIMEOUT, ERROR or AUTH_FAILED;
it then prints a summary and can save the working proxies to a file.

This project models the logic the script owns, with the network, the clock
and the console replaced by values:

- `wrappers.dfy` — `Option`, for Python's `Optional`.
- `text.dfy` (module `Text`) — the string handling the parser relies on:
  `str.strip()` over Python's whitespace set, `str.split(':')` with its
  inverse `Join`, `int()` of a decimal literal (with the whitespace set
  `int()` itself ignores, which lacks the separators FS to US that
  `str.strip()` removes) and `str()` of an integer.
- `config.dfy` (module `ProxyConfigs`) — `ProxyConfig`, its display form
  `host:port` and its URL, `parse_proxy_line` (as `ParseLine`, whose verdict
  keeps the diagnostic the source prints, and `ParseProxyLine`, the
  `Optional` view), and the loop of `load_proxies` over the file's lines.
- `probe.dfy` (module `Probe`) — the decision skeleton of `check_proxy`: the
  stage-1 walk over the IP endpoints (first 407 is AUTH_FAILED at once, first
  200 ends the walk even without an IP, anything else moves on, no IP is
  ERROR and stage 2 never runs), the stage-2 walk over the speed-test URLs
  (first URL that measures a speed wins), the step-by-step SLOW rule, the
  resulting `ProxyResult`, and `check_proxies` as one result per proxy in
  input order.
- `report.dfy` (module `Report`) — the counts of `print_summary` and the
  selection and lines written by `save_working_proxies`.

Where a piece of the source is a loop that builds a value (`load_proxies`,
the two walks in `check_proxy`, `check_proxies`, `save_working_proxies`), it
is a method whose `ensures` ties its result to a specification function; the
properties of those functions are lemmas. The flag `is_slow`, which
`check_proxy` sets step by step, is the method `ClassifySpeed`, whose
`ensures` ties the status to the predicate `IsSlow`.

A few facts about `proxy_checker.py` that the model keeps:

- stage 2 of `check_proxy` only measures a download speed, streaming the
  response in chunks of 8192 bytes; there is no idle-read timeout and no
  check on how many bytes arrive before a stall;
- a proxy that found an IP is OK or SLOW by two thresholds, a total time and
  a speed;
- any integer of at most 4300 digits is accepted as a port, including zero,
  negatives and values above 65535. The bound is CPython's default limit on
  the digits `int()` reads (leading zeros count, the sign does not); a longer
  port field gets "Invalid port";
- `--include-slow` adds the SLOW proxies, after the OK ones, to the saved list.

## Model

| member | source | states |
|---|---|---|
| Text.Strip | proxy_checker.py:58 | the stripped line neither begins nor ends with a character of Python's whitespace set |
| Text.StripEmpty | proxy_checker.py:58-59 | a line strips to the empty string exactly when every character is whitespace |
| Text.Split | proxy_checker.py:62 | splitting on `:` gives one more piece than there are colons, no piece holds a colon, and joining the pieces with `:` gives the line back |
| Text.SplitJoin | proxy_checker.py:62-67 | colon-free fields joined with `:` split back into exactly those fields |
| Text.ParseLiteral | proxy_checker.py:68-72 | an integer is read exactly when the text is an optional sign followed by one to 4300 ASCII digits; it is negative only after a `-`, and every value read has at most 4300 digits |
| Text.ParseLiteralDigits | proxy_checker.py:69 | a string of ASCII digits reads as its decimal value when it has at most 4300 digits, and is refused beyond that |
| Text.ParseLiteralSigned | proxy_checker.py:69 | a leading `+` keeps the value of the digits after it and a leading `-` negates it, within the same 4300-digit limit on the digits; beyond it both are refused |
| Text.ParseLiteralLeadingZero | proxy_checker.py:69 | a leading zero does not change the value, but it counts towards the limit: a literal it pushes past 4300 digits is refused |
| Text.ParseInt | proxy_checker.py:68-72 | `int()` succeeds exactly when the text, once the whitespace `int()` ignores is gone from both ends, is an integer literal of at most 4300 digits; a negative value needs a `-` in the text, and every value has at most 4300 digits |
| Text.TrimPadded | proxy_checker.py:58 | trimming removes exactly the whitespace padding around a text that neither starts nor ends with whitespace |
| Text.ParseIntPadded | proxy_checker.py:69 | `int()` reads the literal (at most 4300 digits) between whitespace padding on both sides |
| Text.LongDigitsRejected | proxy_checker.py:69 | `int()` refuses a run of more than 4300 ASCII digits, whatever its value |
| Text.SeparatorBeforeDigits | proxy_checker.py:58-69 | text that starts with one of the separators FS to US is never an integer to `int()`, although `strip()` removes that separator |
| Text.SeparatorStripped | proxy_checker.py:58 | `strip()` removes a leading separator FS to US |
| Text.ParseIntText | proxy_checker.py:68-72 | `int(str(n)) == n` for every integer `n` of at most 4300 digits, with no other range check; beyond that `int()` refuses the text |
| Text.IntText | proxy_checker.py:50-53 | `str()` of the port inside the f-strings: an optional `-` then decimal digits; what the text means is proved by `NatTextValue` (the digits read back as the magnitude) and `ParseIntText` (`int(str(n)) == n` within the digit limit) |
| ProxyConfigs.Display | proxy_checker.py:52-53 | for a colon-free host, `str(config)` splits at `:` into exactly the host and the port text, and that text reads back as the port when the port has at most 4300 digits (every parsed port has) |
| ProxyConfigs.DisplayIgnoresCredentials | proxy_checker.py:52-53 | `str(config)` does not depend on the username or the password |
| ProxyConfigs.Url | proxy_checker.py:48-50 | the URL starts with `http://`; when no field holds `@` and the credentials hold no `:`, the rest splits at `@` into `username:password` and `host:port`, and the credentials split at `:` into the username and the password |
| ProxyConfigs.ParseLine | proxy_checker.py:56-74 | a line is skipped silently exactly when it is blank or a comment after stripping; a parsed configuration's host, username and password hold no colon, and its port has at most 4300 digits |
| ProxyConfigs.ParseProxyLine | proxy_checker.py:56-74 | a configuration is returned exactly when the line parses, and it is the parsed configuration; `None` otherwise |
| ProxyConfigs.SkippedLines | proxy_checker.py:58-60 | a line yields `None` with no diagnostic exactly when it is all whitespace or its first non-whitespace character is `#` |
| ProxyConfigs.WrongFieldCount | proxy_checker.py:62-65 | a non-skipped line without exactly three colons (one, two or three fields, or five or more) is rejected with "Invalid proxy format: " and the stripped line |
| ProxyConfigs.PortMustBeInteger | proxy_checker.py:67-72 | a four-field line is rejected with "Invalid port: " and the port field exactly when `int()` refuses that field (not an integer literal, or more than 4300 digits); otherwise the port is its value |
| ProxyConfigs.LongPortRejected | proxy_checker.py:67-72 | a four-field line whose port field is more than 4300 digits is rejected with "Invalid port: " and that field |
| ProxyConfigs.ParsedIsFieldwise | proxy_checker.py:62-74 | a parsed configuration is the field-wise decomposition of the stripped line: it reads `host:p:username:password` for a colon-free port field `p` whose value is the port |
| ProxyConfigs.FormatParseRoundTrip | proxy_checker.py:56-74 | writing a configuration as `host:port:username:password` and parsing it gives the configuration back for every port of at most 4300 digits (zero, negatives and ports above 65535 included), and "Invalid port" for a longer one, when no field holds a colon, the host does not start with whitespace or `#` and the password does not end with whitespace |
| ProxyConfigs.LoadProxies | proxy_checker.py:77-91 | a missing file gives no proxies and the "File not found" message; otherwise the proxies are the configurations of the parsed lines and the messages the diagnostics of the malformed ones, both in line order |
| ProxyConfigs.LoadStep | proxy_checker.py:86-89 | one more line adds its configuration or its diagnostic, if it has one, at the end |
| ProxyConfigs.LoadBound | proxy_checker.py:86-89 | the configurations and diagnostics together are no more than the lines |
| ProxyConfigs.KeptInOrder | proxy_checker.py:86-89 | the kept configurations are exactly the parsed verdicts, at strictly increasing positions, none missed |
| ProxyConfigs.LoadKeepsParsedLines | proxy_checker.py:86-89 | the load returns exactly the lines that parse, in input order, and at most as many as there are lines |
| ProxyConfigs.KeptConcat | proxy_checker.py:86-89 | keeping from two runs of verdicts gives the configurations and diagnostics of the first run followed by those of the second |
| ProxyConfigs.LoadConcat | proxy_checker.py:86-89 | loading two runs of lines one after the other gives the concatenation of their configurations and of their diagnostics |
| Probe.IdentityOf | proxy_checker.py:133-153 | stage 1 ends in authentication failure only if some endpoint answered 407, and finds an IP only if some endpoint answered 200 carrying that IP |
| Probe.SelectIdentity | proxy_checker.py:131-162 | the stage-1 loop with its early return and break computes the identity the endpoint outcomes determine |
| Probe.FirstDecisiveSettles | proxy_checker.py:134-153 | the first endpoint answering 407 or 200 settles stage 1 (407 is AUTH_FAILED, 200 is its IP value or none) and no later endpoint matters |
| Probe.NoDecisiveNoIdentity | proxy_checker.py:134-162 | when every endpoint raised or answered another status, no IP is found |
| Probe.MeasuredSpeed | proxy_checker.py:178-185 | an attempt measures a speed exactly when it is a 200 that streamed bytes in positive time; the speed is positive and times the seconds gives the kilobytes streamed |
| Probe.FirstSpeed | proxy_checker.py:164-189 | stage 2 measures a speed exactly when some speed-test URL measures one, and it is positive |
| Probe.FirstMeasuredSettles | proxy_checker.py:167-189 | the first URL that measures a speed gives the speed and the later URLs do not matter |
| Probe.MeasureSpeed | proxy_checker.py:164-189 | the stage-2 loop with its break computes the first measured speed |
| Probe.ClassifySpeed | proxy_checker.py:197-204 | the status is SLOW exactly when a measured speed is below the speed threshold or the total time exceeds the time threshold, and OK otherwise; no measured speed alone never gives SLOW |
| Probe.ProbeResult | proxy_checker.py:94-212 | the result names the proxy by `host:port`; AUTH_FAILED exactly when stage 1 hits a 407 first, with "Proxy authentication failed"; ERROR exactly when no IP is found, with "Failed to get IP through proxy"; in both no time, speed or IP is reported; otherwise OK or SLOW by the SLOW rule with the IP, the stage-1 time, the measured speed and no error message; never TIMEOUT |
| Probe.CheckProxy | proxy_checker.py:94-212 | `check_proxy` returns the result the endpoint outcomes, clock readings and thresholds determine |
| Probe.CheckProxies | proxy_checker.py:267-298 | one result per proxy, in the order of the proxies, each the probe result of that proxy |
| Report.WithStatus | proxy_checker.py:321 | the selection keeps exactly the results with the given status, and no more results than there are |
| Report.WithStatusConcat | proxy_checker.py:321 | selecting from two runs of results gives the selection from the first followed by the selection from the second, so order and repeats are kept |
| Report.WithStatusSingle | proxy_checker.py:321 | a single result is selected exactly when it has the status |
| Report.CountStatus | proxy_checker.py:304-306 | the count of a status is the number of results the selection of that status keeps |
| Report.StatusCountsPartition | proxy_checker.py:303-307 | the counts of the five statuses add up to the number of results |
| Report.Summarize | proxy_checker.py:301-307 | the OK, SLOW and TIMEOUT counts are the numbers of results with those statuses, the error count is the number with ERROR plus the number with AUTH_FAILED, and the four add up to the total |
| Report.SelectWorking | proxy_checker.py:319-323 | the saved list is the OK results in input order followed, with `include_slow`, by the SLOW ones; it holds exactly those, and as many as the summary's OK count (plus its SLOW count when asked) |
| Report.SaveWorkingProxies | proxy_checker.py:319-327 | one line `proxy + "\n"` is written per selected result, in the selection's order |

## Left out

- Network I/O: aiohttp sessions, connectors, requests, `response.json()` and streamed reads are replaced by per-endpoint outcomes (`EndpointOutcome`, `SpeedAttempt`). The source tries exactly two identity endpoints and two speed-test URLs; the model takes any number of outcomes.
- JSON bodies: an `EndpointOutcome` carries the value under the IP key already extracted; a body that is not a JSON object counts as an exception, as the source's inner `except` does.
- Clock: `time.perf_counter` readings (stage-1 time, download time, total time) are inputs.
- Floating point: times, speeds and thresholds are reals; the speed `(bytes / 1024) / seconds` is computed without rounding.
- Concurrency: the semaphore and `asyncio.gather` in `check_proxies`; `CheckProxies` runs the probes one after the other.
- The outer exception handlers of `check_proxy` (lines 214-237). Every request in the two walks sits in its own `except Exception: continue`, so a request that times out there only moves the walk on; a probe whose identity requests all time out ends as ERROR ("Failed to get IP through proxy"), as the model has it. The outer handlers, which give TIMEOUT and the other ERROR messages, catch only what is raised outside those requests: opening or closing the session, or a failure between the walks. Those exceptions depend on library types, so modelled probes never yield TIMEOUT.
- Console output: `print_result`, the progress lines, the ANSI colours and the printing in `print_summary`; the parse diagnostics and the "File not found" message are returned as data instead.
- File I/O: opening and reading the proxy file (its lines are an input, `None` when the file does not exist) and writing the output file (the written lines are returned).
- Command line: `main` and argparse, including the threshold defaults (15 s and 50 KB/s on the command line, 10 KB/s as `check_proxy`'s own default); thresholds are parameters.
- Text.ParseLiteral, Text.ParseInt, ProxyConfigs.PortMustBeInteger, ProxyConfigs.ParseLine: Python's `int()` also accepts `_` between digits and non-ASCII decimal digits; the model accepts only an optional sign and ASCII digits, so a port field written that way is rejected by the model where the source reads it.
- Text.IntText: CPython's `str()` raises for an integer of more than 4300 digits, while the model writes its digits. `Display`, `Url` and `FormatLine` inherit this. A port read by the parser never exceeds the limit (`ParseLine`'s contract), so it never arises for a parsed configuration.
- Text.MaxStrDigits: the digit limit is CPython's default in 3.11 and later and in the 3.7.14, 3.8.14, 3.9.14 and 3.10.7 security releases; earlier interpreters have no limit. The `PYTHONINTMAXSTRDIGITS` environment variable, the `-X int_max_str_digits` option and `sys.set_int_max_str_digits` can change it; the model fixes it at 4300.

=== FILE: config.dfy ===
/** `ProxyConfig`, its two textual forms, the parser for one line of the
    proxy list (`parse_proxy_line`) and the loop that keeps the lines that
    parse (`load_proxies`). */
module ProxyConfigs {
  import opened Wrappers
  import opened Text

  /** One proxy endpoint with its credentials. The port is any integer:
      nothing checks that it is a valid TCP port. A port read from a line
      has at most `MaxStrDigits` digits. */
  datatype ProxyConfig = ProxyConfig(host: string, port: int, username: string, password: string)

  /** `str(config)`: `host:port`, the form used in results and saved files.
      For a host without a colon it splits back into exactly the host and the
      port, and the port field reads back as the port when it is within the
      digit limit. */
  function Display(c: ProxyConfig): (r: string)
    ensures ':' !in c.host ==> Split(r, ':') == [c.host, IntText(c.port)]
    ensures ':' !in c.host ==>
      ParseInt(Split(r, ':')[1]) == if WithinDigitLimit(c.port) then Some(c.port) else None
  {
    var r := c.host + ":" + IntText(c.port);
    if ':' in c.host then r
    else
      IntTextChars(c.port, ':');
      JoinPieces(c.host, IntText(c.port), [], [], ':');
      SplitJoin([c.host, IntText(c.port)], ':');
      ParseIntText(c.port);
      r
  }

  /** The display form is made of the host and the port only: changing the
      credentials does not change it. */
  lemma DisplayIgnoresCredentials(c: ProxyConfig, username: string, password: string)
    ensures Display(c) == Display(c.(username := username, password := password))
  {
  }

  /** `config.url`: `http://` followed by `username:password@host:port`. When
      no field holds `@` and the credentials hold no `:`, the part after the
      scheme splits at `@` into the credentials and the display form, and the
      credentials split at `:` into the username and the password. */
  function Url(c: ProxyConfig): (r: string)
    ensures |r| > 7 && r[..7] == "http://"
    ensures '@' !in c.host && '@' !in c.username && '@' !in c.password &&
            ':' !in c.username && ':' !in c.password ==>
      var halves := Split(r[7..], '@');
      && halves == [c.username + ":" + c.password, Display(c)]
      && Split(halves[0], ':') == [c.username, c.password]
  {
    var r := "http://" + c.username + ":" + c.password + "@" + c.host + ":" + IntText(c.port);
    var credentials := c.username + ":" + c.password;
    assert r == "http://" + (credentials + "@" + Display(c));
    assert r[7..] == credentials + "@" + Display(c);
    if '@' in c.host || '@' in c.username || '@' in c.password || ':' in c.username || ':' in c.password then r
    else
      IntTextChars(c.port, '@');
      assert '@' !in Display(c);
      JoinPieces(c.username, c.password, [], [], ':');
      JoinPieces(credentials, Display(c), [], [], '@');
      SplitJoin([credentials, Display(c)], '@');
      SplitJoin([c.username, c.password], ':');
      r
  }

  /** What `parse_proxy_line` does with one line: skip it silently, reject it
      with the diagnostic it prints, or produce a configuration. */
  datatype LineVerdict = Blank | Malformed(message: string) | Parsed(config: ProxyConfig)

  /** A line that is empty once stripped, or whose stripped form starts with `#`. */
  predicate IsBlankOrComment(line: string) {
    var s := Strip(line);
    s == [] || s[0] == '#'
  }

  /** `parse_proxy_line`, with its printed diagnostics as data. A parsed
      configuration's host, username and password hold no colon, and its
      port is within the digit limit. */
  function ParseLine(line: string): (v: LineVerdict)
    ensures v.Blank? <==> IsBlankOrComment(line)
    ensures v.Parsed? ==> ':' !in v.config.host && ':' !in v.config.username && ':' !in v.config.password
    ensures v.Parsed? ==> WithinDigitLimit(v.config.port)
  {
    var s := Strip(line);
    if s == [] || s[0] == '#' then Blank
    else
      var parts := Split(s, ':');
      if |parts| != 4 then Malformed("Invalid proxy format: " + s)
      else
        match ParseInt(parts[1])
        case None => Malformed("Invalid port: " + parts[1])
        case Some(port) => Parsed(ProxyConfig(parts[0], port, parts[2], parts[3]))
  }

  /** `parse_proxy_line` as the source returns it: the configuration or `None`. */
  function ParseProxyLine(line: string): (r: Option<ProxyConfig>)
    ensures r.Some? <==> ParseLine(line).Parsed?
    ensures r.Some? ==> r.value == ParseLine(line).config
  {
    match ParseLine(line)
    case Parsed(c) => Some(c)
    case _ => None
  }

  /** Blank and comment lines are skipped without a diagnostic: exactly the
      lines that are all whitespace, or whose first character that is not
      whitespace is `#`. */
  lemma {:induction false} SkippedLines(line: string)
    ensures ParseLine(line) == Blank <==>
      (forall i :: 0 <= i < |line| ==> IsSpace(line[i])) ||
      (exists k :: 0 <= k < |line| && line[k] == '#' && forall j :: 0 <= j < k ==> IsSpace(line[j]))
    ensures ParseLine(line) == Blank ==> ParseProxyLine(line) == None
  {
    StripEmpty(line);
    var s := Strip(line);
    var left := TrimLeft(line, IsSpace);
    var k := |line| - |left|;
    if s != [] {
      assert s == left[..|s|];
      assert s[0] == left[0] == line[k];
      assert forall j :: 0 <= j < k ==> line[j] != '#';
    }
  }

  /** A line that is not skipped and does not hold exactly three colons (so
      it has one, two or three fields, or five or more) is rejected as
      malformed. */
  lemma WrongFieldCount(line: string)
    requires !IsBlankOrComment(line)
    requires Occurrences(Strip(line), ':') != 3
    ensures ParseLine(line) == Malformed("Invalid proxy format: " + Strip(line))
    ensures ParseProxyLine(line) == None
  {
  }

  /** A four-field line whose second field is not an integer literal is
      rejected with the port diagnostic, and so is one with more digits than
      `MaxStrDigits`. Any integer within that limit is accepted, including
      zero, negative ports and ports above 65535. */
  lemma PortMustBeInteger(line: string)
    requires !IsBlankOrComment(line)
    requires Occurrences(Strip(line), ':') == 3
    ensures var port := Split(Strip(line), ':')[1];
      ParseLine(line) == (match ParseInt(port)
                          case None => Malformed("Invalid port: " + port)
                          case Some(n) => Parsed(ParseLine(line).config))
    ensures ParseLine(line).Parsed? ==> ParseInt(Split(Strip(line), ':')[1]) == Some(ParseLine(line).config.port)
  {
  }

  /** A parsed configuration is the field-wise decomposition of the stripped
      line: the line is `host:p:username:password` for a port field `p` that
      reads as the port. */
  lemma ParsedIsFieldwise(line: string)
    requires ParseLine(line).Parsed?
    ensures var c := ParseLine(line).config;
      exists p :: ParseInt(p) == Some(c.port) && ':' !in p &&
        Strip(line) == c.host + ":" + p + ":" + c.username + ":" + c.password
  {
    var c := ParseLine(line).config;
    var parts := ParsedFields(line);
    FourFieldsJoin(Strip(line));
    var p := parts[1];
    assert ParseInt(p) == Some(c.port) && ':' !in p &&
      Strip(line) == c.host + ":" + p + ":" + c.username + ":" + c.password;
  }

  /** The four colon-separated fields a parsed line was read from. */
  lemma ParsedFields(line: string) returns (parts: seq<string>)
    requires ParseLine(line).Parsed?
    ensures parts == Split(Strip(line), ':') && |parts| == 4
    ensures ParseInt(parts[1]) == Some(ParseLine(line).config.port)
    ensures ParseLine(line).config == ProxyConfig(parts[0], ParseLine(line).config.port, parts[2], parts[3])
  {
    parts := Split(Strip(line), ':');
  }

  /** A string with four colon-separated fields is those fields rejoined. */
  lemma FourFieldsJoin(s: string)
    requires |Split(s, ':')| == 4
    ensures var parts := Split(s, ':');
      s == parts[0] + ":" + parts[1] + ":" + parts[2] + ":" + parts[3]
      && ':' !in parts[1]
  {
    var parts := Split(s, ':');
    assert parts == [parts[0], parts[1], parts[2], parts[3]];
    JoinPieces(parts[0], parts[1], parts[2], parts[3], ':');
  }

  /** The line `host:port:username:password` that a configuration is written as. */
  function FormatLine(c: ProxyConfig): string {
    c.host + ":" + IntText(c.port) + ":" + c.username + ":" + c.password
  }

  /** The fields that survive a round trip through a line: none holds a colon,
      the host does not begin with whitespace or `#`, and the password does
      not end with whitespace. */
  predicate Formattable(c: ProxyConfig) {
    && ':' !in c.host && ':' !in c.username && ':' !in c.password
    && (c.host == [] || (!IsSpace(c.host[0]) && c.host[0] != '#'))
    && (c.password == [] || !IsSpace(c.password[|c.password| - 1]))
  }

  lemma FormatLineUntouched(c: ProxyConfig)
    requires Formattable(c)
    ensures Strip(FormatLine(c)) == FormatLine(c)
    ensures FormatLine(c) != [] && FormatLine(c)[0] != '#'
  {
    FormatLineEnds(c);
    StripUntouched(FormatLine(c));
  }

  /** A formatted line begins with the host's first character and ends with
      the password's last one, or with the separating colon where they are empty. */
  lemma FormatLineEnds(c: ProxyConfig)
    ensures FormatLine(c) != []
    ensures FormatLine(c)[0] == (if c.host == [] then ':' else c.host[0])
    ensures FormatLine(c)[|FormatLine(c)| - 1] == (if c.password == [] then ':' else c.password[|c.password| - 1])
  {
    var line := FormatLine(c);
    assert line == c.host + (":" + IntText(c.port) + ":" + c.username + ":" + c.password);
    assert line == (c.host + ":" + IntText(c.port) + ":" + c.username + ":") + c.password;
  }

  lemma FormatLineFields(c: ProxyConfig)
    requires Formattable(c)
    ensures Split(FormatLine(c), ':') == [c.host, IntText(c.port), c.username, c.password]
  {
    var parts := [c.host, IntText(c.port), c.username, c.password];
    IntTextChars(c.port, ':');
    JoinPieces(c.host, IntText(c.port), c.username, c.password, ':');
    SplitJoin(parts, ':');
  }

  /** Round trip: writing a configuration as a line and parsing the line
      gives the configuration back when its port is within the digit limit
      (zero, negative and above 65535 included); a longer port is rejected
      with the port diagnostic. */
  lemma FormatParseRoundTrip(c: ProxyConfig)
    requires Formattable(c)
    ensures ParseLine(FormatLine(c)) ==
      if WithinDigitLimit(c.port) then Parsed(c) else Malformed("Invalid port: " + IntText(c.port))
    ensures ParseProxyLine(FormatLine(c)) == if WithinDigitLimit(c.port) then Some(c) else None
  {
    var line := FormatLine(c);
    FormatLineUntouched(c);
    FormatLineFields(c);
    ParseIntText(c.port);
  }

  /** A port field of more than `MaxStrDigits` digits is refused by `int()`,
      so a line that carries one gets the port diagnostic. */
  lemma LongPortRejected(line: string)
    requires !IsBlankOrComment(line)
    requires Occurrences(Strip(line), ':') == 3
    requires var port := Split(Strip(line), ':')[1]; |port| > MaxStrDigits && AllDigits(port)
    ensures ParseLine(line) == Malformed("Invalid port: " + Split(Strip(line), ':')[1])
  {
    LongDigitsRejected(Split(Strip(line), ':')[1]);
    PortMustBeInteger(line);
  }

  /** The verdict on every line of a file, in line order. */
  function Verdicts(lines: seq<string>): (vs: seq<LineVerdict>)
    ensures |vs| == |lines|
    ensures forall i :: 0 <= i < |lines| ==> vs[i] == ParseLine(lines[i])
  {
    seq(|lines|, i requires 0 <= i < |lines| => ParseLine(lines[i]))
  }

  /** The configurations of the parsed verdicts, in order. */
  function Kept(vs: seq<LineVerdict>): seq<ProxyConfig>
    decreases |vs|
  {
    if vs == [] then []
    else
      var last := vs[|vs| - 1];
      Kept(vs[..|vs| - 1]) + (if last.Parsed? then [last.config] else [])
  }

  /** The diagnostics of the malformed verdicts, in order. */
  function Reported(vs: seq<LineVerdict>): seq<string>
    decreases |vs|
  {
    if vs == [] then []
    else
      var last := vs[|vs| - 1];
      Reported(vs[..|vs| - 1]) + (if last.Malformed? then [last.message] else [])
  }

  /** The positions of the parsed verdicts, in increasing order. */
  function KeptPositions(vs: seq<LineVerdict>): seq<nat>
    decreases |vs|
  {
    if vs == [] then []
    else
      var n := |vs| - 1;
      KeptPositions(vs[..n]) + (if vs[n].Parsed? then [n] else [])
  }

  /** `load_proxies`: the proxy file is `None` when it does not exist, else its
      lines. The configurations come back with the diagnostics the load prints. */
  method LoadProxies(path: string, file: Option<seq<string>>) returns (proxies: seq<ProxyConfig>, messages: seq<string>)
    ensures file.None? ==> proxies == [] && messages == ["File not found: " + path]
    ensures file.Some? ==> proxies == Kept(Verdicts(file.value)) && messages == Reported(Verdicts(file.value))
  {
    proxies, messages := [], [];
    if file.None? {
      messages := ["File not found: " + path];
      return;
    }
    var lines := file.value;
    ghost var verdicts := Verdicts(lines);
    for i := 0 to |lines|
      invariant proxies == Kept(verdicts[..i])
      invariant messages == Reported(verdicts[..i])
    {
      var verdict := ParseLine(lines[i]);
      assert verdict == verdicts[i];
      PrefixStep(verdicts, i);
      LoadStep(verdicts[..i], verdict);
      match verdict
      case Parsed(proxy) =>
        proxies := proxies + [proxy];
      case Malformed(message) =>
        messages := messages + [message];
      case Blank =>
    }
    assert verdicts[..|lines|] == verdicts;
  }

  lemma PrefixStep<T>(s: seq<T>, i: nat)
    requires i < |s|
    ensures s[..i + 1] == s[..i] + [s[i]]
  {
  }

  /** One more line adds its configuration or its diagnostic, if any. */
  lemma LoadStep(vs: seq<LineVerdict>, v: LineVerdict)
    ensures Kept(vs + [v]) == Kept(vs) + (if v.Parsed? then [v.config] else [])
    ensures Reported(vs + [v]) == Reported(vs) + (if v.Malformed? then [v.message] else [])
  {
    assert (vs + [v])[..|vs|] == vs;
  }

  /** Every line yields at most one configuration or one diagnostic, so the
      load returns no more configurations than there are lines. */
  lemma {:induction false} LoadBound(vs: seq<LineVerdict>)
    ensures |Kept(vs)| + |Reported(vs)| <= |vs|
    decreases |vs|
  {
    if vs != [] {
      LoadBound(vs[..|vs| - 1]);
    }
  }

  /** The load keeps exactly the verdicts that are configurations, in order:
      the k-th configuration is the verdict at the k-th kept position, those
      positions increase, and every parsed verdict is at one of them. */
  lemma {:induction false} KeptInOrder(vs: seq<LineVerdict>)
    ensures var configs, positions := Kept(vs), KeptPositions(vs);
      && |positions| == |configs|
      && (forall k :: 0 <= k < |positions| ==> positions[k] < |vs| && vs[positions[k]] == Parsed(configs[k]))
      && (forall k, m :: 0 <= k < m < |positions| ==> positions[k] < positions[m])
      && (forall i :: 0 <= i < |vs| && vs[i].Parsed? ==> i in positions)
    decreases |vs|
  {
    if vs != [] {
      var n := |vs| - 1;
      KeptInOrder(vs[..n]);
    }
  }

  /** `load_proxies` returns exactly the configurations of the lines that
      parse, in input order, and no more than there are lines. */
  lemma LoadKeepsParsedLines(lines: seq<string>)
    ensures var configs, positions := Kept(Verdicts(lines)), KeptPositions(Verdicts(lines));
      && |configs| <= |lines|
      && |positions| == |configs|
      && (forall k :: 0 <= k < |positions| ==>
            positions[k] < |lines| && ParseLine(lines[positions[k]]) == Parsed(configs[k]))
      && (forall k, m :: 0 <= k < m < |positions| ==> positions[k] < positions[m])
      && (forall i :: 0 <= i < |lines| && ParseLine(lines[i]).Parsed? ==> i in positions)
  {
    LoadBound(Verdicts(lines));
    KeptInOrder(Verdicts(lines));
  }

  /** Keeping from two runs of verdicts keeps from each in turn. */
  lemma {:induction false} KeptConcat(a: seq<LineVerdict>, b: seq<LineVerdict>)
    ensures Kept(a + b) == Kept(a) + Kept(b)
    ensures Reported(a + b) == Reported(a) + Reported(b)
    decreases |b|
  {
    if b == [] {
      assert a + b == a;
    } else {
      var n := |b| - 1;
      assert (a + b)[..|a + b| - 1] == a + b[..n];
      KeptConcat(a, b[..n]);
    }
  }

  /** Loading two runs of lines one after the other gives the configurations
      and the diagnostics of the first run followed by those of the second. */
  lemma LoadConcat(a: seq<string>, b: seq<string>)
    ensures Kept(Verdicts(a + b)) == Kept(Verdicts(a)) + Kept(Verdicts(b))
    ensures Reported(Verdicts(a + b)) == Reported(Verdicts(a)) + Reported(Verdicts(b))
  {
    var whole, front, back := Verdicts(a + b), Verdicts(a), Verdicts(b);
    forall i | 0 <= i < |a + b| ensures whole[i] == (front + back)[i] {
      if i < |a| {
        assert (a + b)[i] == a[i];
      } else {
        assert (a + b)[i] == b[i - |a|];
      }
    }
    assert whole == front + back;
    KeptConcat(front, back);
  }
}

=== FILE: probe.dfy ===
/** The decision skeleton of `check_proxy` and the batch in `check_proxies`.
    The network is replaced by what it answered: one outcome per identity
    endpoint, one per speed-test URL, and the clock readings. */
module Probe {
  import opened Wrappers
  import opened ProxyConfigs

  /** `ProxyStatus`. The model's probes never produce `Timeout`: only the
      handler of a session-level timeout does. */
  datatype Status = Ok | Slow | Timeout | Error | AuthFailed

  /** `ProxyResult`; times in seconds and the speed in KB/s, as reals. */
  datatype ProxyResult = ProxyResult(
    proxy: string,
    status: Status,
    responseTime: Option<real>,
    downloadSpeed: Option<real>,
    errorMessage: Option<string>,
    ipAddress: Option<string>)

  /** What one identity endpoint (`httpbin.org/ip`, then `api.ipify.org`)
      gave: an exception (connection failure, timeout, or a body that is not
      a JSON object), or a status with the value under the endpoint's IP key
      (`None` when the key is missing or null). */
  datatype EndpointOutcome = EndpointRaised | EndpointAnswered(status: int, ipField: Option<string>)

  /** How stage 1 ends. */
  datatype Identity = IdentityAuthFailed | IdentityMissing | IdentityFound(ip: string)

  /** An outcome that ends the search: a 407 or a 200. */
  predicate Decisive(o: EndpointOutcome) {
    o.EndpointAnswered? && (o.status == 407 || o.status == 200)
  }

  /** The identity a decisive outcome settles on. */
  function Settle(o: EndpointOutcome): Identity
    requires Decisive(o)
  {
    if o.status == 407 then IdentityAuthFailed
    else if o.ipField.Some? then IdentityFound(o.ipField.value)
    else IdentityMissing
  }

  /** Stage 1: the endpoints are tried in order, and the first decisive one
      settles. Authentication fails only if some endpoint answered 407, and an
      IP is found only if some endpoint answered 200 carrying that IP. */
  function IdentityOf(outcomes: seq<EndpointOutcome>): (r: Identity)
    ensures r == IdentityAuthFailed ==>
      exists i :: 0 <= i < |outcomes| && outcomes[i].EndpointAnswered? && outcomes[i].status == 407
    ensures r.IdentityFound? ==>
      exists i :: 0 <= i < |outcomes| && outcomes[i] == EndpointAnswered(200, Some(r.ip))
    decreases |outcomes|
  {
    if outcomes == [] then IdentityMissing
    else if Decisive(outcomes[0]) then Settle(outcomes[0])
    else
      var rest := IdentityOf(outcomes[1..]);
      assert forall i :: 1 <= i < |outcomes| ==> outcomes[i] == outcomes[1..][i - 1];
      rest
  }

  /** The stage-1 loop: a 407 returns at once, a 200 stops the loop with the
      IP value it carries (even none), anything else moves on. */
  method SelectIdentity(outcomes: seq<EndpointOutcome>) returns (identity: Identity)
    ensures identity == IdentityOf(outcomes)
  {
    var ipAddress: Option<string> := None;
    var i := 0;
    while i < |outcomes|
      invariant 0 <= i <= |outcomes|
      invariant ipAddress == None
      invariant IdentityOf(outcomes) == IdentityOf(outcomes[i..])
    {
      assert outcomes[i..][1..] == outcomes[i + 1..];
      match outcomes[i] {
        case EndpointRaised =>
        case EndpointAnswered(status, ipField) =>
          if status == 407 {
            return IdentityAuthFailed;
          }
          if status == 200 {
            ipAddress := ipField;
            break;
          }
      }
      i := i + 1;
    }
    if ipAddress == None {
      return IdentityMissing;
    }
    return IdentityFound(ipAddress.value);
  }

  /** The first decisive endpoint settles stage 1, and the endpoints after it
      play no part: they are never tried. */
  lemma {:induction false} FirstDecisiveSettles(outcomes: seq<EndpointOutcome>, k: nat)
    requires k < |outcomes| && Decisive(outcomes[k])
    requires forall j :: 0 <= j < k ==> !Decisive(outcomes[j])
    ensures IdentityOf(outcomes) == Settle(outcomes[k])
    ensures IdentityOf(outcomes) == IdentityOf(outcomes[..k + 1])
    decreases k
  {
    if k > 0 {
      assert outcomes[1..][..k] == outcomes[..k + 1][1..];
      FirstDecisiveSettles(outcomes[1..], k - 1);
    }
  }

  /** Without a 407 or a 200 anywhere, no IP is found. */
  lemma {:induction false} NoDecisiveNoIdentity(outcomes: seq<EndpointOutcome>)
    requires forall j :: 0 <= j < |outcomes| ==> !Decisive(outcomes[j])
    ensures IdentityOf(outcomes) == IdentityMissing
    decreases |outcomes|
  {
    if outcomes != [] {
      NoDecisiveNoIdentity(outcomes[1..]);
    }
  }

  /** What one speed-test URL (`www.google.com`, then `httpbin.org/bytes/51200`)
      gave: an exception or a timeout, or a status with the bytes streamed
      and the seconds the download took. */
  datatype SpeedAttempt = SpeedRaised | SpeedAnswered(status: int, bytes: nat, seconds: real)

  /** The speed in KB/s that one attempt measures: only a 200 that streamed
      some bytes in positive time measures one. */
  function MeasuredSpeed(a: SpeedAttempt): (speed: Option<real>)
    ensures speed.Some? <==> a.SpeedAnswered? && a.status == 200 && a.bytes > 0 && a.seconds > 0.0
    ensures speed.Some? ==> speed.value > 0.0 && speed.value * a.seconds == a.bytes as real / 1024.0
  {
    if a.SpeedAnswered? && a.status == 200 && a.seconds > 0.0 && a.bytes > 0 then
      var kilobytes := a.bytes as real / 1024.0;
      assert kilobytes > 0.0;
      Some(kilobytes / a.seconds)
    else
      None
  }

  /** Stage 2: the speed of the first attempt that measures one, or none. */
  function FirstSpeed(attempts: seq<SpeedAttempt>): (speed: Option<real>)
    ensures speed.Some? ==> speed.value > 0.0
    ensures speed.Some? <==> exists i :: 0 <= i < |attempts| && MeasuredSpeed(attempts[i]).Some?
    decreases |attempts|
  {
    if attempts == [] then None
    else if MeasuredSpeed(attempts[0]).Some? then MeasuredSpeed(attempts[0])
    else
      var rest := FirstSpeed(attempts[1..]);
      assert forall i :: 1 <= i < |attempts| ==> attempts[i] == attempts[1..][i - 1];
      rest
  }

  /** The first attempt that measures a speed gives the speed, and the
      attempts after it are never made. */
  lemma {:induction false} FirstMeasuredSettles(attempts: seq<SpeedAttempt>, k: nat)
    requires k < |attempts| && MeasuredSpeed(attempts[k]).Some?
    requires forall j :: 0 <= j < k ==> MeasuredSpeed(attempts[j]).None?
    ensures FirstSpeed(attempts) == MeasuredSpeed(attempts[k])
    ensures FirstSpeed(attempts) == FirstSpeed(attempts[..k + 1])
    decreases k
  {
    if k > 0 {
      assert attempts[1..][..k] == attempts[..k + 1][1..];
      FirstMeasuredSettles(attempts[1..], k - 1);
    }
  }

  /** The stage-2 loop: stops at the first URL that measures a speed. */
  method MeasureSpeed(attempts: seq<SpeedAttempt>) returns (downloadSpeed: Option<real>)
    ensures downloadSpeed == FirstSpeed(attempts)
  {
    downloadSpeed := None;
    var i := 0;
    while i < |attempts|
      invariant 0 <= i <= |attempts|
      invariant downloadSpeed == None
      invariant FirstSpeed(attempts) == FirstSpeed(attempts[i..])
    {
      assert attempts[i..][1..] == attempts[i + 1..];
      var measured := MeasuredSpeed(attempts[i]);
      if measured.Some? {
        downloadSpeed := measured;
        break;
      }
      i := i + 1;
    }
  }

  /** The two thresholds of the censorship heuristic. */
  datatype Thresholds = Thresholds(slowTime: real, slowSpeed: real)

  /** The SLOW rule: a measured speed below the speed threshold, or a total
      time above the time threshold. */
  predicate IsSlow(downloadSpeed: Option<real>, totalTime: real, th: Thresholds) {
    (downloadSpeed.Some? && downloadSpeed.value < th.slowSpeed) || totalTime > th.slowTime
  }

  /** `is_slow` set step by step, then OK or SLOW. A speed test that measured
      nothing never makes a proxy SLOW by itself. */
  method ClassifySpeed(downloadSpeed: Option<real>, totalTime: real, th: Thresholds) returns (status: Status)
    ensures status == Slow || status == Ok
    ensures status == Slow <==> IsSlow(downloadSpeed, totalTime, th)
    ensures downloadSpeed.None? && totalTime <= th.slowTime ==> status == Ok
  {
    var isSlow := false;
    if downloadSpeed.Some? {
      if downloadSpeed.value < th.slowSpeed {
        isSlow := true;
      }
    }
    if totalTime > th.slowTime {
      isSlow := true;
    }
    status := if isSlow then Slow else Ok;
  }

  /** What the network and the clock gave one probe: the identity endpoints'
      outcomes, the stage-1 time, the speed-test attempts, and the time from
      the start of stage 1 to the classification. */
  datatype ProbeEnv = ProbeEnv(
    identity: seq<EndpointOutcome>,
    responseTime: real,
    speedTests: seq<SpeedAttempt>,
    totalTime: real)

  /** The result `check_proxy` returns for one proxy. Authentication failure
      and a missing IP end the probe before stage 2, so their results carry
      no time, no speed and no IP; otherwise the status is OK or SLOW by the
      SLOW rule. Each failure carries its own message. It is never TIMEOUT. */
  function ProbeResult(proxy: ProxyConfig, env: ProbeEnv, th: Thresholds): (r: ProxyResult)
    ensures r.proxy == Display(proxy)
    ensures r.status != Timeout
    ensures r.status == AuthFailed <==> IdentityOf(env.identity) == IdentityAuthFailed
    ensures r.status == Error <==> IdentityOf(env.identity) == IdentityMissing
    ensures r.status == Slow <==> IdentityOf(env.identity).IdentityFound? && IsSlow(FirstSpeed(env.speedTests), env.totalTime, th)
    ensures r.status in {AuthFailed, Error} ==> r.responseTime == None && r.downloadSpeed == None && r.ipAddress == None
    ensures r.status == AuthFailed ==> r.errorMessage == Some("Proxy authentication failed")
    ensures r.status == Error ==> r.errorMessage == Some("Failed to get IP through proxy")
    ensures r.status in {Ok, Slow} ==>
      && r.ipAddress == Some(IdentityOf(env.identity).ip)
      && r.responseTime == Some(env.responseTime)
      && r.downloadSpeed == FirstSpeed(env.speedTests)
      && r.errorMessage == None
  {
    match IdentityOf(env.identity)
    case IdentityAuthFailed =>
      ProxyResult(Display(proxy), AuthFailed, None, None, Some("Proxy authentication failed"), None)
    case IdentityMissing =>
      ProxyResult(Display(proxy), Error, None, None, Some("Failed to get IP through proxy"), None)
    case IdentityFound(ip) =>
      var speed := FirstSpeed(env.speedTests);
      ProxyResult(Display(proxy), if IsSlow(speed, env.totalTime, th) then Slow else Ok,
                  Some(env.responseTime), speed, None, Some(ip))
  }

  /** `check_proxy`: stage 1, then (only when an IP was found) stage 2 and the
      classification. */
  method CheckProxy(proxy: ProxyConfig, env: ProbeEnv, th: Thresholds) returns (result: ProxyResult)
    ensures result == ProbeResult(proxy, env, th)
  {
    var identity := SelectIdentity(env.identity);
    if identity == IdentityAuthFailed {
      return ProxyResult(Display(proxy), AuthFailed, None, None, Some("Proxy authentication failed"), None);
    }
    if identity == IdentityMissing {
      return ProxyResult(Display(proxy), Error, None, None, Some("Failed to get IP through proxy"), None);
    }
    var downloadSpeed := MeasureSpeed(env.speedTests);
    var status := ClassifySpeed(downloadSpeed, env.totalTime, th);
    result := ProxyResult(Display(proxy), status, Some(env.responseTime), downloadSpeed, None, Some(identity.ip));
  }

  /** `check_proxies` without the concurrency: one result per proxy, in the
      order of the proxies, as `asyncio.gather` returns them. */
  method CheckProxies(proxies: seq<ProxyConfig>, envs: seq<ProbeEnv>, th: Thresholds) returns (results: seq<ProxyResult>)
    requires |envs| == |proxies|
    ensures |results| == |proxies|
    ensures forall i :: 0 <= i < |proxies| ==> results[i] == ProbeResult(proxies[i], envs[i], th)
  {
    results := [];
    for i := 0 to |proxies|
      invariant |results| == i
      invariant forall j :: 0 <= j < i ==> results[j] == ProbeResult(proxies[j], envs[j], th)
    {
      var result := CheckProxy(proxies[i], envs[i], th);
      results := results + [result];
    }
  }
}

=== FILE: report.dfy ===
/** The bookkeeping over a batch of results: the counts `print_summary`
    shows and the selection `save_working_proxies` writes. */
module Report {
  import opened Probe

  /** `[r for r in results if r.status == status]`: the results with that
      status, in input order. */
  function WithStatus(results: seq<ProxyResult>, status: Status): (selected: seq<ProxyResult>)
    ensures |selected| <= |results|
    ensures forall r :: r in selected <==> r in results && r.status == status
    decreases |results|
  {
    if results == [] then []
    else
      var rest := WithStatus(results[1..], status);
      assert forall r :: r in results <==> r == results[0] || r in results[1..];
      if results[0].status == status then [results[0]] + rest else rest
  }

  /** Selecting from two runs of results one after the other selects from
      the first run, then from the second: the selection keeps the input
      order and every occurrence. */
  lemma {:induction false} WithStatusConcat(a: seq<ProxyResult>, b: seq<ProxyResult>, status: Status)
    ensures WithStatus(a + b, status) == WithStatus(a, status) + WithStatus(b, status)
    decreases |a|
  {
    if a == [] {
      assert a + b == b;
    } else {
      assert (a + b)[0] == a[0];
      assert (a + b)[1..] == a[1..] + b;
      WithStatusConcat(a[1..], b, status);
    }
  }

  /** A single result is selected exactly when it has the status. Together
      with `WithStatusConcat` this fixes the selection of every sequence. */
  lemma WithStatusSingle(r: ProxyResult, status: Status)
    ensures WithStatus([r], status) == if r.status == status then [r] else []
  {
    assert [r][1..] == [];
  }

  /** `sum(1 for r in results if r.status == status)`: the number of results
      with that status, which is the length of their selection. */
  function CountStatus(results: seq<ProxyResult>, status: Status): (n: nat)
    ensures n <= |results|
    ensures n == |WithStatus(results, status)|
    decreases |results|
  {
    if results == [] then 0
    else (if results[0].status == status then 1 else 0) + CountStatus(results[1..], status)
  }

  /** Every result has exactly one of the five statuses. */
  lemma {:induction false} StatusCountsPartition(results: seq<ProxyResult>)
    ensures CountStatus(results, Ok) + CountStatus(results, Slow) + CountStatus(results, Timeout)
          + CountStatus(results, Error) + CountStatus(results, AuthFailed) == |results|
    decreases |results|
  {
    if results != [] {
      StatusCountsPartition(results[1..]);
    }
  }

  /** The figures `print_summary` prints. */
  datatype Summary = Summary(total: nat, ok: nat, slow: nat, timeout: nat, errors: nat)

  /** `print_summary`'s counts: each bucket is the number of results with
      its status, errors take in both ERROR and AUTH_FAILED, and so the four
      buckets partition the results. */
  function Summarize(results: seq<ProxyResult>): (s: Summary)
    ensures s.total == |results|
    ensures s.ok + s.slow + s.timeout + s.errors == s.total
    ensures s.ok == |WithStatus(results, Ok)| && s.slow == |WithStatus(results, Slow)|
    ensures s.timeout == |WithStatus(results, Timeout)|
    ensures s.errors == |WithStatus(results, Error)| + |WithStatus(results, AuthFailed)|
  {
    StatusCountsPartition(results);
    Summary(|results|, CountStatus(results, Ok), CountStatus(results, Slow), CountStatus(results, Timeout),
            CountStatus(results, Error) + CountStatus(results, AuthFailed))
  }

  /** The selection in `save_working_proxies`: the OK results, then, with
      `include_slow`, the SLOW ones. Exactly the OK results, and the SLOW
      ones when asked, are kept; their number is the summary's OK count,
      plus its SLOW count when asked. */
  method SelectWorking(results: seq<ProxyResult>, includeSlow: bool) returns (working: seq<ProxyResult>)
    ensures working == WithStatus(results, Ok) + (if includeSlow then WithStatus(results, Slow) else [])
    ensures forall r :: r in working <==> r in results && (r.status == Ok || (includeSlow && r.status == Slow))
    ensures |working| == Summarize(results).ok + (if includeSlow then Summarize(results).slow else 0)
  {
    working := WithStatus(results, Ok);
    if includeSlow {
      working := working + WithStatus(results, Slow);
    }
  }

  /** `save_working_proxies`: the lines it writes to the output file, one
      `host:port` per kept result, in the order of the selection. */
  method SaveWorkingProxies(results: seq<ProxyResult>, includeSlow: bool) returns (written: seq<string>)
    ensures var working := WithStatus(results, Ok) + (if includeSlow then WithStatus(results, Slow) else []);
      |written| == |working| && forall i :: 0 <= i < |working| ==> written[i] == working[i].proxy + "\n"
  {
    var working := SelectWorking(results, includeSlow);
    written := [];
    for i := 0 to |working|
      invariant |written| == i
      invariant forall j :: 0 <= j < i ==> written[j] == working[j].proxy + "\n"
    {
      written := written + [working[i].proxy + "\n"];
    }
  }
}

=== FILE: text.dfy ===
/** The pieces of Python's string handling that the proxy-list parser uses:
    `str.strip()`, `str.split(sep)`, `int()` applied to a decimal literal and
    `str()` applied to an integer. */
module Text {
  import opened Wrappers

  /** The characters for which Python's `str.isspace()` holds: the ASCII
      controls TAB to CR, the separators FS to US, the space, and the Unicode
      whitespace code points. */
  predicate IsSpace(c: char) {
    || ('\t' <= c <= '\r')
    || ('\U{1C}' <= c <= '\U{1F}')
    || c == ' '
    || c == '\U{85}'
    || c == '\U{A0}'
    || c == '\U{1680}'
    || ('\U{2000}' <= c <= '\U{200A}')
    || c == '\U{2028}'
    || c == '\U{2029}'
    || c == '\U{202F}'
    || c == '\U{205F}'
    || c == '\U{3000}'
  }

  /** The whitespace that `int()` ignores around a literal. Python's `int()`
      keeps every code point below 127 as it is and then skips only the ASCII
      whitespace TAB to CR and the space, so the separators FS to US, which
      `str.strip()` removes, make the text unreadable as an integer. Above
      127 it skips the same whitespace as `str.isspace()`. */
  predicate IsIntSpace(c: char) {
    IsSpace(c) && !('\U{1C}' <= c <= '\U{1F}')
  }

  /** Drops the leading characters that `isSpace` holds for, and nothing else. */
  function TrimLeft(s: string, isSpace: char -> bool): (r: string)
    ensures |r| <= |s| && r == s[|s| - |r|..]
    ensures r == [] || !isSpace(r[0])
    ensures forall i :: 0 <= i < |s| - |r| ==> isSpace(s[i])
    decreases |s|
  {
    if s != [] && isSpace(s[0]) then
      var r := TrimLeft(s[1..], isSpace);
      assert forall i :: 1 <= i < |s| - |r| ==> s[i] == s[1..][i - 1];
      r
    else s
  }

  /** Drops the trailing characters that `isSpace` holds for, and nothing else. */
  function TrimRight(s: string, isSpace: char -> bool): (r: string)
    ensures |r| <= |s| && r == s[..|r|]
    ensures r == [] || !isSpace(r[|r| - 1])
    ensures forall i :: |r| <= i < |s| ==> isSpace(s[i])
    decreases |s|
  {
    if s != [] && isSpace(s[|s| - 1]) then TrimRight(s[..|s| - 1], isSpace) else s
  }

  /** Both ends trimmed: the result neither starts nor ends with a character
      that `isSpace` holds for. */
  function Trim(s: string, isSpace: char -> bool): (r: string)
    ensures r == [] || (!isSpace(r[0]) && !isSpace(r[|r| - 1]))
  {
    var left := TrimLeft(s, isSpace);
    var r := TrimRight(left, isSpace);
    assert r != [] ==> r[0] == left[0];
    r
  }

  /** `s.strip()`: the result neither starts nor ends with whitespace. */
  function Strip(s: string): (r: string)
    ensures r == [] || (!IsSpace(r[0]) && !IsSpace(r[|r| - 1]))
  {
    Trim(s, IsSpace)
  }

  /** A string trims to nothing exactly when `isSpace` holds for all of it. */
  lemma TrimEmpty(s: string, isSpace: char -> bool)
    ensures Trim(s, isSpace) == [] <==> forall i :: 0 <= i < |s| ==> isSpace(s[i])
  {
    var left := TrimLeft(s, isSpace);
    var r := Trim(s, isSpace);
    if r == [] {
      assert left == [];
    } else {
      assert !isSpace(r[0]);
      assert r == left[..|r|];
      assert s[|s| - |left|] == left[0];
    }
  }

  /** A line strips to nothing exactly when every character is whitespace. */
  lemma StripEmpty(s: string)
    ensures Strip(s) == [] <==> forall i :: 0 <= i < |s| ==> IsSpace(s[i])
  {
    TrimEmpty(s, IsSpace);
  }

  /** A string that neither starts nor ends with such a character is its own trim. */
  lemma TrimUntouched(s: string, isSpace: char -> bool)
    requires s == [] || (!isSpace(s[0]) && !isSpace(s[|s| - 1]))
    ensures Trim(s, isSpace) == s
  {
  }

  /** A string with no whitespace at either end is its own strip. */
  lemma StripUntouched(s: string)
    requires s == [] || (!IsSpace(s[0]) && !IsSpace(s[|s| - 1]))
    ensures Strip(s) == s
  {
    TrimUntouched(s, IsSpace);
  }

  lemma {:induction false} TrimLeftPadding(pre: string, s: string, isSpace: char -> bool)
    requires forall i :: 0 <= i < |pre| ==> isSpace(pre[i])
    ensures TrimLeft(pre + s, isSpace) == TrimLeft(s, isSpace)
    decreases |pre|
  {
    if pre != [] {
      assert (pre + s)[0] == pre[0] && (pre + s)[1..] == pre[1..] + s;
      TrimLeftPadding(pre[1..], s, isSpace);
    } else {
      assert pre + s == s;
    }
  }

  lemma {:induction false} TrimRightPadding(s: string, post: string, isSpace: char -> bool)
    requires forall i :: 0 <= i < |post| ==> isSpace(post[i])
    ensures TrimRight(s + post, isSpace) == TrimRight(s, isSpace)
    decreases |post|
  {
    if post != [] {
      assert (s + post)[|s + post| - 1] == post[|post| - 1];
      assert (s + post)[..|s + post| - 1] == s + post[..|post| - 1];
      TrimRightPadding(s, post[..|post| - 1], isSpace);
    } else {
      assert s + post == s;
    }
  }

  /** Trimming removes exactly the padding: whitespace on both sides of a text
      that itself neither starts nor ends with whitespace. */
  lemma TrimPadded(pre: string, t: string, post: string, isSpace: char -> bool)
    requires forall i :: 0 <= i < |pre| ==> isSpace(pre[i])
    requires forall i :: 0 <= i < |post| ==> isSpace(post[i])
    requires t == [] || (!isSpace(t[0]) && !isSpace(t[|t| - 1]))
    ensures Trim(pre + t + post, isSpace) == t
  {
    assert pre + t + post == pre + (t + post);
    TrimLeftPadding(pre, t + post, isSpace);
    if t == [] {
      assert t + post == post;
      TrimEmpty(post, isSpace);
    } else {
      assert TrimLeft(t + post, isSpace) == t + post;
      TrimRightPadding(t, post, isSpace);
    }
  }

  /** The number of times `c` occurs in `s`. */
  function Occurrences(s: string, c: char): nat
    decreases |s|
  {
    if s == [] then 0 else (if s[0] == c then 1 else 0) + Occurrences(s[1..], c)
  }

  /** The inverse of `Split`: the pieces glued back together with `sep`. */
  function Join(parts: seq<string>, sep: char): string
    requires |parts| >= 1
    decreases |parts|
  {
    if |parts| == 1 then parts[0] else parts[0] + [sep] + Join(parts[1..], sep)
  }

  /** `Join` of two and of four pieces, spelled out. */
  lemma JoinPieces(a: string, b: string, c: string, d: string, sep: char)
    ensures Join([a, b], sep) == a + [sep] + b
    ensures Join([a, b, c, d], sep) == a + [sep] + b + [sep] + c + [sep] + d
  {
    assert [a, b][1..] == [b];
    assert [c, d][1..] == [d];
    assert Join([c, d], sep) == c + [sep] + d;
    assert [b, c, d][1..] == [c, d];
    assert Join([b, c, d], sep) == b + [sep] + (c + [sep] + d);
    assert [a, b, c, d][1..] == [b, c, d];
    assert Join([a, b, c, d], sep) == a + [sep] + (b + [sep] + (c + [sep] + d));
  }

  /** `s.split(sep)` for a one-character separator: one more piece than there
      are separators, no piece holds the separator, and the pieces joined by it
      give back `s`. */
  function Split(s: string, sep: char): (parts: seq<string>)
    ensures |parts| == Occurrences(s, sep) + 1
    ensures forall i :: 0 <= i < |parts| ==> sep !in parts[i]
    ensures Join(parts, sep) == s
    decreases |s|
  {
    if s == [] then [[]]
    else
      var rest := Split(s[1..], sep);
      if s[0] == sep then
        assert ([[]] + rest)[1..] == rest;
        [[]] + rest
      else
        var parts := [[s[0]] + rest[0]] + rest[1..];
        assert parts[1..] == rest[1..];
        assert s == [s[0]] + s[1..];
        parts
  }

  /** A piece without the separator splits into itself alone. */
  lemma {:induction false} SplitField(x: string, sep: char)
    requires sep !in x
    ensures Split(x, sep) == [x]
    decreases |x|
  {
    if x != [] {
      SplitField(x[1..], sep);
      assert [x[0]] + x[1..] == x;
    }
  }

  /** Splitting stops at the first separator. */
  lemma {:induction false} SplitAtSeparator(x: string, y: string, sep: char)
    requires sep !in x
    ensures Split(x + [sep] + y, sep) == [x] + Split(y, sep)
    decreases |x|
  {
    var s := x + [sep] + y;
    if x == [] {
      assert s[1..] == y;
    } else {
      assert s[1..] == x[1..] + [sep] + y;
      SplitAtSeparator(x[1..], y, sep);
      assert [x[0]] + x[1..] == x;
    }
  }

  /** Round trip: pieces free of the separator are recovered by splitting
      what `Join` makes of them. */
  lemma {:induction false} SplitJoin(parts: seq<string>, sep: char)
    requires |parts| >= 1
    requires forall i :: 0 <= i < |parts| ==> sep !in parts[i]
    ensures Split(Join(parts, sep), sep) == parts
    decreases |parts|
  {
    if |parts| == 1 {
      SplitField(parts[0], sep);
    } else {
      SplitJoin(parts[1..], sep);
      SplitAtSeparator(parts[0], Join(parts[1..], sep), sep);
      assert [parts[0]] + parts[1..] == parts;
    }
  }

  predicate IsDigit(c: char) {
    '0' <= c <= '9'
  }

  predicate AllDigits(s: string) {
    forall i :: 0 <= i < |s| ==> IsDigit(s[i])
  }

  function DigitValue(c: char): (d: nat)
    requires IsDigit(c)
    ensures d < 10
  {
    (c as int) - ('0' as int)
  }

  function DigitChar(d: nat): (c: char)
    requires d < 10
    ensures IsDigit(c) && DigitValue(c) == d
  {
    ('0' as int + d) as char
  }

  /** The value of a string of decimal digits, most significant first. */
  function DigitsValue(ds: string): nat
    requires AllDigits(ds)
    decreases |ds|
  {
    if ds == [] then 0 else DigitsValue(ds[..|ds| - 1]) * 10 + DigitValue(ds[|ds| - 1])
  }

  /** `str(n)` for a natural number: its decimal digits, no leading zero. */
  function NatText(n: nat): (t: string)
    ensures |t| >= 1 && AllDigits(t)
    ensures |t| > 1 ==> t[0] != '0'
    decreases n
  {
    if n < 10 then [DigitChar(n)] else NatText(n / 10) + [DigitChar(n % 10)]
  }

  /** `str(n)`: a minus sign before the digits of a negative integer. The model
      writes every integer; `str()` itself refuses more than `MaxStrDigits` digits. */
  function IntText(n: int): (t: string)
    ensures |t| >= 1 && (t[0] == '-' || IsDigit(t[0])) && IsDigit(t[|t| - 1])
  {
    if n < 0 then "-" + NatText(-n) else NatText(n)
  }

  /** CPython's default limit on the number of digits `int()` reads from, and
      `str()` writes for, a decimal integer (`sys.int_info.default_max_str_digits`). */
  const MaxStrDigits := 4300

  /** An integer whose decimal text stays within the digit limit. */
  predicate WithinDigitLimit(n: int) {
    |NatText(if n < 0 then -n else n)| <= MaxStrDigits
  }

  /** What `int()` accepts once surrounding whitespace is gone: an optional
      sign followed by one to `MaxStrDigits` ASCII digits, leading zeros
      included in the count. */
  predicate IsIntLiteral(t: string) {
    var digits := if |t| >= 1 && (t[0] == '+' || t[0] == '-') then t[1..] else t;
    1 <= |digits| <= MaxStrDigits && AllDigits(digits)
  }

  /** A digit string has at least as many digits as the text of its value. */
  lemma {:induction false} DigitsValueLength(ds: string)
    requires |ds| >= 1 && AllDigits(ds)
    ensures |NatText(DigitsValue(ds))| <= |ds|
    decreases |ds|
  {
    var init := ds[..|ds| - 1];
    var v := DigitsValue(ds);
    if init != [] && v >= 10 {
      DigitsValueLength(init);
      assert v / 10 == DigitsValue(init);
    }
  }

  /** The value of an integer literal that has no surrounding whitespace.
      Every value read stays within the digit limit, so writing it back
      with `str()` never fails. */
  function ParseLiteral(t: string): (r: Option<int>)
    ensures r.Some? <==> IsIntLiteral(t)
    ensures r.Some? && r.value < 0 ==> t[0] == '-'
    ensures r.Some? ==> WithinDigitLimit(r.value)
  {
    if !IsIntLiteral(t) then None
    else if t[0] == '-' then
      DigitsValueLength(t[1..]);
      Some(0 - DigitsValue(t[1..]))
    else if t[0] == '+' then
      DigitsValueLength(t[1..]);
      Some(DigitsValue(t[1..]))
    else
      DigitsValueLength(t);
      Some(DigitsValue(t))
  }

  /** `int(s)` in base 10: the whitespace `int()` ignores is dropped from both
      ends, and `None` stands where Python raises `ValueError`. */
  function ParseInt(s: string): (r: Option<int>)
    ensures r.Some? <==> IsIntLiteral(Trim(s, IsIntSpace))
    ensures r.Some? && r.value < 0 ==> '-' in s
    ensures r.Some? ==> WithinDigitLimit(r.value)
  {
    var left := TrimLeft(s, IsIntSpace);
    var t := Trim(s, IsIntSpace);
    assert t != [] ==> t[0] == left[0] == s[|s| - |left|];
    ParseLiteral(t)
  }

  /** A leading zero does not change the value of a digit string. */
  lemma {:induction false} LeadingZero(ds: string)
    requires AllDigits(ds)
    ensures AllDigits("0" + ds) && DigitsValue("0" + ds) == DigitsValue(ds)
    decreases |ds|
  {
    var t := "0" + ds;
    if ds != [] {
      LeadingZero(ds[..|ds| - 1]);
      assert t[..|t| - 1] == "0" + ds[..|ds| - 1];
    }
  }

  /** A digit string reads as its decimal value, unless it has more digits
      than the limit allows. */
  lemma ParseLiteralDigits(ds: string)
    requires |ds| >= 1 && AllDigits(ds)
    ensures ParseLiteral(ds) == if |ds| <= MaxStrDigits then Some(DigitsValue(ds)) else None
  {
    assert ds[0] != '-' && ds[0] != '+';
  }

  /** A `+` before the digits leaves their value unchanged and a `-` negates
      it; the sign does not count towards the digit limit. */
  lemma ParseLiteralSigned(ds: string)
    requires |ds| >= 1 && AllDigits(ds)
    ensures ParseLiteral("+" + ds) == if |ds| <= MaxStrDigits then Some(DigitsValue(ds)) else None
    ensures ParseLiteral("-" + ds) == if |ds| <= MaxStrDigits then Some(0 - DigitsValue(ds)) else None
  {
    SignedLiteral('+', ds);
    SignedLiteral('-', ds);
  }

  lemma SignedLiteral(sign: char, ds: string)
    requires sign == '+' || sign == '-'
    requires |ds| >= 1 && AllDigits(ds)
    ensures IsIntLiteral([sign] + ds) <==> |ds| <= MaxStrDigits
    ensures ([sign] + ds)[0] == sign && ([sign] + ds)[1..] == ds
  {
    assert ([sign] + ds)[1..] == ds;
  }

  /** A leading zero does not change the value, but it does count towards
      the digit limit. Together with `ParseLiteralSigned` and
      `ParseLiteralText` this fixes the outcome for every literal. */
  lemma ParseLiteralLeadingZero(ds: string)
    requires |ds| >= 1 && AllDigits(ds)
    ensures ParseLiteral("0" + ds) == if |ds| < MaxStrDigits then ParseLiteral(ds) else None
  {
    LeadingZero(ds);
    ParseLiteralDigits(ds);
    ParseLiteralDigits("0" + ds);
  }

  /** `int()` refuses a run of more than `MaxStrDigits` digits. */
  lemma LongDigitsRejected(ds: string)
    requires |ds| > MaxStrDigits && AllDigits(ds)
    ensures ParseInt(ds) == None
  {
    assert !IsIntSpace(ds[0]) && !IsIntSpace(ds[|ds| - 1]);
    TrimUntouched(ds, IsIntSpace);
    ParseLiteralDigits(ds);
  }

  /** `int()` reads the literal between whitespace padding on either side. */
  lemma ParseIntPadded(pre: string, t: string, post: string)
    requires forall i :: 0 <= i < |pre| ==> IsIntSpace(pre[i])
    requires forall i :: 0 <= i < |post| ==> IsIntSpace(post[i])
    requires IsIntLiteral(t)
    ensures ParseInt(pre + t + post) == ParseLiteral(t)
  {
    assert IsDigit(t[|t| - 1]);
    TrimPadded(pre, t, post, IsIntSpace);
  }

  /** The separators FS to US are whitespace to `str.strip()` but not to
      `int()`: text that starts with one is never an integer, although
      `strip()` would have removed it. */
  lemma SeparatorBeforeDigits(c: char, t: string)
    requires '\U{1C}' <= c <= '\U{1F}'
    ensures ParseInt([c] + t) == None
  {
    var s := [c] + t;
    var left := TrimLeft(s, IsIntSpace);
    assert left == s;
    var r := Trim(s, IsIntSpace);
    assert r != [] ==> r[0] == c;
    assert r != [] by {
      assert !IsIntSpace(s[0]);
      TrimEmpty(s, IsIntSpace);
    }
  }

  /** `strip()` drops a separator FS to US in front of any text. */
  lemma SeparatorStripped(c: char, t: string)
    requires '\U{1C}' <= c <= '\U{1F}'
    ensures Strip([c] + t) == Strip(t)
  {
    assert IsSpace([c][0]);
    TrimLeftPadding([c], t, IsSpace);
    assert Strip([c] + t) == TrimRight(TrimLeft([c] + t, IsSpace), IsSpace);
  }

  lemma {:induction false} NatTextValue(n: nat)
    ensures DigitsValue(NatText(n)) == n
    decreases n
  {
    if n >= 10 {
      NatTextValue(n / 10);
      var t := NatText(n);
      assert t[..|t| - 1] == NatText(n / 10);
    }
  }

  /** The digits of `str(n)` read back as `n` when they are within the limit,
      and not at all beyond it. */
  lemma {:induction false} ParseLiteralText(n: int)
    ensures ParseLiteral(IntText(n)) == if WithinDigitLimit(n) then Some(n) else None
  {
    if n < 0 {
      NatTextValue(-n);
      ParseLiteralSigned(NatText(-n));
      assert IntText(n) == "-" + NatText(-n);
      assert 0 - DigitsValue(NatText(-n)) == n;
    } else {
      NatTextValue(n);
      ParseLiteralDigits(NatText(n));
    }
  }

  /** Round trip: `int(str(n)) == n` for every integer within the digit limit;
      beyond it `int()` refuses the text. */
  lemma ParseIntText(n: int)
    ensures ParseInt(IntText(n)) == if WithinDigitLimit(n) then Some(n) else None
  {
    var t := IntText(n);
    assert !IsIntSpace(t[0]) && !IsIntSpace(t[|t| - 1]);
    TrimUntouched(t, IsIntSpace);
    ParseLiteralText(n);
  }

  /** `str(n)` holds no occurrence of a character that is neither a digit nor `-`. */
  lemma IntTextChars(n: int, c: char)
    requires !IsDigit(c) && c != '-'
    ensures c !in IntText(n)
  {
    var t := IntText(n);
    if n < 0 {
      assert t == "-" + NatText(-n);
      assert forall i :: 1 <= i < |t| ==> t[i] == NatText(-n)[i - 1];
    }
  }
}

=== FILE: wrappers.dfy ===
/** The optional value that stands for Python's `Optional[...]` (a value or `None`). */
module Wrappers {

  datatype Option<+T> = None | Some(value: T)
}
